=== FILE: README.md ===
# react-custom-hooks-kit: the stateful hooks as pure state machines

This project models, in Dafny, the five hooks of `react-custom-hooks-kit`
that hold real state-transition logic: `useForm`, `useFetch`,
`useCountDown`, `useToggle` and `useLocalStorage`. React's
`setState(prev => f(prev))` is read as "replace the state by `f(prev)`", so
every handler and effect becomes a pure function on immutable records and
maps, and every sequence of user actions is a fold of those functions.

- `maps.dfy` (module `Maps`): `Option`, and the relations "`m'` is `m` with
  only key `k` written" (`WrittenAt`, `AgreeExcept`) used for the
  object-spread updates, the cache write and `setItem`.
- `use_form.dfy` (module `UseForm`): the field map and the error map;
  `OnChange` (checkbox `checked` or text `value`, clearing the field's error
  on a non-empty value) and `OnSubmit` (validator entries become the errors;
  otherwise the callback receives the fields and they reset). The partner
  properties are an invariant (no field of the map the fields were last set
  from is ever lost), idempotence and commutation of changes, and that
  invariant over whole runs that include re-renders with a new argument.
- `use_fetch.dfy` (module `UseFetch`): the process-wide cache and the
  four-cell outcome. An attempt is `Begin` (hit, or start loading) followed
  by `Complete` with an abstract `Response` (a decoded body, or a raised
  value). Decoded bodies are a JSON datatype with JavaScript truthiness,
  because the hit test is `if (cache[url])`. The partner is the `Grows`
  relation on caches, kept across any run, with a monotone error flag.
- `use_count_down.dfy` (module `UseCountDown`): the effect's guard
  (`Settle`), the interval updater (`Tick`), and the value after `n` periods
  (`After`), proved equal to `max(count - n, 0)`.
- `use_toggle.dfy` (module `UseToggle`): negation, its involution, and the
  parity law for `n` toggles.
- `use_local_storage.dfy` (module `UseLocalStorage`): the lazy initial read
  with its fallbacks, the write-back effect on value and key changes, the
  mirror invariant over any run, and the read-back round trip.

Behaviours of the code that the model keeps on purpose:

- The hit test is truthiness, not presence. A body that decodes to `null`,
  `false`, `0` or `""` is written to the cache but never served, so the
  next attempt for that URL goes to the network again
  (`UseFetch.FalsyBodyIsRefetched`). Presence alone does not short-circuit
  the request: the entry must be truthy (`src/hooks/useFetch/useFetch.ts:31`).
- No path resets `isError` or `error`, so a later success leaves them set
  (`UseFetch.ErrorSurvivesSuccess`).
- A submit is blocked by any validator entry, even one whose message is
  `""` (`UseForm.BlankMessagesStillBlock`).
- The countdown value is a JavaScript number. A tick from a value strictly
  between 0 and 1 hands React a negative value (0.5 becomes -0.5). That
  value is rendered once, and then the effect normalises it to 0
  (`UseCountDown.TickRendersNegativeOnlyBelowOne`). After each whole period
  the value is never negative.
- `useState(initialInputValue)` keeps the first render's argument, but a
  successful submit resets to the argument of the current render
  (`src/hooks/useForm/useForm.ts:71`). When the argument changes, a field of
  the mount value can disappear (`UseForm.ArgumentChangeCanDropField`).
- Changing the `key` of `useLocalStorage` does not re-read the store. The
  current value is written under the new key, and the old key keeps its
  last value (`UseLocalStorage.SetKey`).

## Model

| member | source | states |
|---|---|---|
| `UseForm.Init` | src/hooks/useForm/useForm.ts:31-32 | the first state has the initial fields and an empty error map, and satisfies the form invariant |
| `UseForm.OnChange` | src/hooks/useForm/useForm.ts:35-56 | a checkbox stores `checked` under `name` and any other input stores `value`, with every other field unchanged; a non-empty `value` sets that field's error to `""` and leaves every other error alone; an empty `value` leaves the error map exactly as it was |
| `UseForm.OnSubmit` | src/hooks/useForm/useForm.ts:59-72 | a validator result with any entry becomes the error map, the fields stay and the callback does not fire; an empty result fires the callback with the pre-submit fields, resets the fields to the initial values and keeps the errors; the callback fires exactly when the validator returns the empty map |
| `UseForm.OnChangeKeepsInv` | src/hooks/useForm/useForm.ts:38-46 | a change never drops a field of the map the fields were last set from |
| `UseForm.OnSubmitKeepsInv` | src/hooks/useForm/useForm.ts:62-71 | neither submit branch drops a field of the map it resets to |
| `UseForm.OnChangeIdempotent` | src/hooks/useForm/useForm.ts:35-56 | repeating the same change event gives the same state as applying it once |
| `UseForm.OnChangeCommutes` | src/hooks/useForm/useForm.ts:35-56 | changes to two different field names give the same state in either order |
| `UseForm.BlankMessagesStillBlock` | src/hooks/useForm/useForm.ts:62-66 | a validator result whose only message is `""` still blocks the submit and is stored as the errors |
| `UseForm.Mount` | src/hooks/useForm/useForm.ts:26-32 | a mounted form starts in the initial state, with the mount argument as both the current argument and the map the fields were set from, and no callback calls |
| `UseForm.RunKeepsInv` | src/hooks/useForm/useForm.ts:26-72 | over any sequence of changes, submits and re-renders with a new argument, no field of the map the fields were last set from is lost, earlier callback arguments are kept in order, and the callback fires at most once per submit; while the argument never changes, that map stays the mount value |
| `UseForm.ArgumentChangeCanDropField` | src/hooks/useForm/useForm.ts:31-71 | a submit resets to the argument of the current render: mounting with field `x`, re-rendering with `{}` and submitting leaves no `x` |
| `UseFetch.InitialOutcome` | src/hooks/useFetch/useFetch.ts:24-27 | an activation starts with data `[]`, not loading, error `null` and the error flag false |
| `UseFetch.Begin` | src/hooks/useFetch/useFetch.ts:29-34 | the request is skipped exactly when the URL has a present, truthy cache entry; a hit publishes that entry and leaves loading false; a miss sets loading and changes nothing else |
| `UseFetch.Complete` | src/hooks/useFetch/useFetch.ts:35-47 | a body is published and written to the cache under the URL, with no other cache key and neither error cell changed; a raised value is published as the error with the flag set, leaving data and cache unchanged; loading ends false in both cases |
| `UseFetch.Fetch` | src/hooks/useFetch/useFetch.ts:29-48 | a whole attempt: the network is used exactly on a miss; a hit leaves the cache alone and publishes the cached body; success and failure as above; loading ends false; the cache only grows and never replaces a truthy entry; a set error flag stays set |
| `UseFetch.SecondActivationHits` | src/hooks/useFetch/useFetch.ts:31-39 | once a miss has cached a truthy body, a new activation for the same URL is served that body without a request and is never loading |
| `UseFetch.FalsyBodyIsRefetched` | src/hooks/useFetch/useFetch.ts:31-39 | a falsy body is cached, yet the next attempt for the URL still issues a request |
| `UseFetch.ErrorSurvivesSuccess` | src/hooks/useFetch/useFetch.ts:41-47 | after a failure, a success for any URL keeps the error value and the error flag |
| `UseFetch.RunInvariants` | src/hooks/useFetch/useFetch.ts:21-48 | over any sequence of attempts the cache keeps every key and every truthy entry, the error flag never returns to false, and loading is false after every completed attempt |
| `UseCountDown.DefaultsAre50And100` | src/hooks/useCountDown/useCountDown.ts:9-10 | the defaults are count 50 and delay 100, and the first value is the `count` argument |
| `UseCountDown.Settle` | src/hooks/useCountDown/useCountDown.ts:16-19 | a value at or below 0 becomes 0 and starts no interval; a positive value is kept and starts one; the result is never negative |
| `UseCountDown.Tick` | src/hooks/useCountDown/useCountDown.ts:23-30 | a positive `prev` yields `prev - 1` and keeps the interval; any other `prev` yields 0 and clears it |
| `UseCountDown.After` | src/hooks/useCountDown/useCountDown.ts:12-36 | after the first effect and any number of periods the value is never negative and never above `max(count, 0)` |
| `UseCountDown.AfterIsSaturatedSubtraction` | src/hooks/useCountDown/useCountDown.ts:16-30 | after `n` periods from `count` the value is `max(count - n, 0)` |
| `UseCountDown.AfterNonIncreasing` | src/hooks/useCountDown/useCountDown.ts:16-30 | the value never increases from one period to the next, and 0 stays 0 |
| `UseCountDown.ThreeReachesZero` | src/hooks/useCountDown/useCountDown.ts:16-30 | from 3 the value is 0 after three periods and on every later one |
| `UseCountDown.TickRendersNegativeOnlyBelowOne` | src/hooks/useCountDown/useCountDown.ts:15-28 | the updater returns a negative value exactly when `prev` is strictly between 0 and 1, and the effect turns any such value into 0 and starts no interval |
| `UseToggle.DefaultIsOff` | src/hooks/useToggle/useToggle.ts:12-17 | the first value is `initialValue`, which defaults to false; one toggle turns it on and two turn it off again |
| `UseToggle.Toggle` | src/hooks/useToggle/useToggle.ts:17 | a toggle always changes the value |
| `UseToggle.ToggleTwice` | src/hooks/useToggle/useToggle.ts:17 | two toggles return the original value |
| `UseToggle.ToggledParity` | src/hooks/useToggle/useToggle.ts:17 | after `n` toggles the value is the initial one XOR (`n` is odd) |
| `UseLocalStorage.ReadInitial` | src/hooks/useLocalStorage/useLocalStorage.ts:13-20 | the initial value is the parsed stored string when `getItem` succeeds, the string is non-empty and it parses; it is `initialValue` when `getItem` throws, the key is absent, the string is empty or parsing fails |
| `UseLocalStorage.WriteBack` | src/hooks/useLocalStorage/useLocalStorage.ts:22-24 | the key then holds the serialised value and every other key is unchanged |
| `UseLocalStorage.Mount` | src/hooks/useLocalStorage/useLocalStorage.ts:13-24 | mounting reads the initial value and writes it back, so the store mirrors it, touching no other key |
| `UseLocalStorage.SetValue` | src/hooks/useLocalStorage/useLocalStorage.ts:22-26 | a new value is saved and written under the current key, touching no other key |
| `UseLocalStorage.SetKey` | src/hooks/useLocalStorage/useLocalStorage.ts:13-24 | a new key keeps the saved value without re-reading and writes it under the new key, touching no other key |
| `UseLocalStorage.UpdatesMirror` | src/hooks/useLocalStorage/useLocalStorage.ts:22-24 | after either kind of change the store holds the serialised saved value under the current key |
| `UseLocalStorage.RemountReadsBack` | src/hooks/useLocalStorage/useLocalStorage.ts:13-24 | if parse inverts serialise on the saved value, a fresh mount on the mirrored store reads back that value and leaves the store as it was |
| `UseLocalStorage.InvalidDataFallsBack` | src/hooks/useLocalStorage/useLocalStorage.ts:14-19 | stored data that does not parse gives `initialValue`, which is then written back |
| `UseLocalStorage.RunKeepsMirror` | src/hooks/useLocalStorage/useLocalStorage.ts:22-24 | over any sequence of value and key changes the store stays mirrored, and every key the run never used keeps its content |

## Left out

- `useClickAway`, `useIntersectionObserver`, `useMediaQuery`, `useMousePosition`, `useScroll` and `useWindowSize` are not part of this model. They subscribe to browser events and republish what the browser reports, and they have no state logic to state.
- `src/index.ts` (re-exports) and `rollup.config.js` (build configuration) are not part of this model.
- React rendering, batching and effect scheduling are not modelled. Each handler or effect is one transition applied to the latest state. So `OnSubmit` reads the current fields, while the source reads the fields of the last render; the two differ only when updates are still pending.
- `preventDefault` and the DOM event objects are not modelled. A change event is the record (name, type, value, checked).
- Form values are text or booleans. Other JavaScript values that a caller may put in the initial fields, and non-string validator messages, are not modelled.
- UseForm.OnSubmit: assumes that the validator and the submit callback return normally. In the source, a throwing `inputValidator` changes nothing and its exception escapes the handler. A throwing `submitCallback` escapes before `setFormInputs(initialInputValue)` at `src/hooks/useForm/useForm.ts:71`, so the fields are not reset. The model's `validate` is total, and its success branch always resets the fields.
- UseCountDown.After: models the count as an exact real, not as an IEEE-754 double. So the model does not cover `NaN`, `±Infinity`, or magnitudes at or above 2^53, where `prev - 1` rounds. With `count = NaN`, the guard `NaN <= 0` is false, so an interval starts; the tick's `NaN > 0` is also false, so the value is 0 after one period. With `Infinity` the value never decreases. At or above 2^53, `prev - 1` can round back to `prev` (for example at 18014398509481988), so the source never counts down. The closed form `max(count - n, 0)` of `UseCountDown.AfterIsSaturatedSubtraction` holds only for finite counts whose decrements are exact.
- Timers are not modelled: `setInterval`, `clearInterval` and the `delay` argument beyond its default. The countdown is modelled as periods, each a tick followed by the effect it triggers.
- The real `fetch` and `response.json()` are not modelled. Each miss completes with one abstract `Response`.
- Overlapping in-flight fetches and their races are not modelled, nor are writes from torn-down activations. Every attempt completes before the next begins.
- UseFetch.Begin: keys that name `Object.prototype` members are not modelled. The source's cache is the plain object literal `{}`, so `cache[url]` also finds inherited members such as `constructor`, `toString`, `valueOf` or `__proto__`. For those URLs on an empty cache, the source sees a truthy value, publishes it as data and issues no request. The model's cache has only its own keys, so it counts such a URL as a miss and issues a request. A write to `cache["__proto__"]`, which replaces the prototype rather than adding a key, is not modelled either.
- `UseFetch.Outcome`: `error` is `None` for the initial `null`. A thrown `null` becomes `Some(null)` in the model, which differs from the initial state. In the source it looks exactly like the initial state: `null === null`. A thrown `undefined` differs from the initial `null` in both the source and the model.
- `UseFetch.Json`: numbers are reals. `NaN` cannot come from JSON decoding, and `-0` is `0`.
- UseLocalStorage.Mount: assumes that the write-back succeeds. Storage that makes `getItem` throw makes `localStorage.setItem` at `src/hooks/useLocalStorage/useLocalStorage.ts:23` throw too. That happens when storage is blocked or `localStorage` is null. The exception is not caught and escapes the effect. So when `readThrows` holds, the source writes nothing, and `Mirrored` and the write that `Mount` promises do not hold in the source. The model also assumes that `serialize` never throws. In the source, `JSON.stringify` throws on a cyclic or `BigInt` value, and that exception escapes the effect too.
- `JSON.parse` and `JSON.stringify` are modelled as caller-supplied functions. `setItem` failing, for example on a full quota, is not modelled. Neither are changes that other tabs make to the store.
- `setSavedValue` with an updater function is not modelled separately. It is `SetValue` applied to the updater's result.
- React's bail-out on an identical state is not modelled. React skips the re-render and the effect when the new state is identical; the model writes the same string back, which leaves the store the same unless something else changed it.

=== FILE: maps.dfy ===
/** Shared vocabulary for the hooks' state: an optional value and the
    "only this key changed" relations on maps that the object-spread
    updates (`{...prev, [name]: v}`) and the store writes are stated with. */
module Maps {

  /** A value that may be absent (the hooks' `null`/`undefined`). */
  datatype Option<+T> = None | Some(value: T)

  /** `m'` agrees with `m` on every key other than `k`: the same keys are
      present and they are bound to the same values. */
  ghost predicate AgreeExcept<K, V>(m: map<K, V>, m': map<K, V>, k: K)
  {
    && m'.Keys - {k} == m.Keys - {k}
    && forall x :: x in m && x != k ==> x in m' && m'[x] == m[x]
  }

  /** `m'` is `m` with `k` bound to `v` and nothing else changed. */
  ghost predicate WrittenAt<K, V>(m: map<K, V>, m': map<K, V>, k: K, v: V)
  {
    k in m' && m'[k] == v && AgreeExcept(m, m', k)
  }

  /** Every key of `m` is still a key of `m'` (nothing was removed). */
  ghost predicate KeysKept<K, V>(m: map<K, V>, m': map<K, V>)
  {
    m.Keys <= m'.Keys
  }
}

=== FILE: use_count_down.dfy ===
/** `useCountDown`: a number (a JavaScript `number`, so a real here) that the
    hook's effect normalises and an interval decrements. After every render
    the effect runs: a non-positive value is replaced by 0 and no interval
    starts; a positive one starts an interval whose tick replaces the value
    by `prev - 1`, or by 0 and stops when `prev` is not positive. Each change
    re-renders and re-runs the effect, so one "cycle" is a tick followed by
    the effect. Timer scheduling itself is not modelled. */
module UseCountDown {

  /** The hook's default arguments. */
  const DefaultCount: real := 50.0
  const DefaultDelay: real := 100.0

  /** The hook's arguments: the starting count and the interval in ms. */
  datatype Config = Config(count: real, delay: real)

  /** What the effect leaves: the value, and whether an interval now runs. */
  datatype Settled = Settled(value: real, ticking: bool)

  /** What one interval tick leaves: the value, and whether it cleared the
      interval. */
  datatype Ticked = Ticked(value: real, cleared: bool)

  function Max(a: real, b: real): real
  {
    if a >= b then a else b
  }

  /** The arguments as the caller passed them, with the defaults filled in. */
  function Configure(count: real := DefaultCount, delay: real := DefaultDelay): Config
  {
    Config(count, delay)
  }

  /** The state's first value is the `count` argument. */
  function InitialValue(c: Config): real
  {
    c.count
  }

  /** Called without arguments the hook starts at 50 with a 100 ms interval. */
  lemma DefaultsAre50And100()
    ensures Configure() == Config(50.0, 100.0)
    ensures InitialValue(Configure()) == 50.0
    ensures forall c: real, d: real :: InitialValue(Configure(c, d)) == c
  {
  }

  /** The effect: a value at or below 0 is normalised to 0 and no interval is
      started; a positive value is kept and an interval starts. */
  function Settle(countFrom: real): (r: Settled)
    ensures r.value >= 0.0
    ensures r.ticking <==> countFrom > 0.0
    ensures r.ticking ==> r.value == countFrom
    ensures !r.ticking ==> r.value == 0.0
  {
    if countFrom <= 0.0 then Settled(0.0, false) else Settled(countFrom, true)
  }

  /** The interval callback's updater. */
  function Tick(prev: real): (r: Ticked)
    ensures prev > 0.0 ==> r.value == prev - 1.0 && !r.cleared
    ensures prev <= 0.0 ==> r.value == 0.0 && r.cleared
    ensures r.value < prev || (r.cleared && r.value == 0.0)
  {
    if prev > 0.0 then Ticked(prev - 1.0, false) else Ticked(0.0, true)
  }

  /** The value after the first effect and `n` further interval periods.
      Once the effect settles at 0 no interval runs and the value stays. */
  function After(count: real, n: nat): (v: real)
    ensures v >= 0.0
    ensures v <= Max(count, 0.0)
    decreases n
  {
    if n == 0 then Settle(count).value
    else
      var prev := After(count, n - 1);
      if Settle(prev).ticking then Settle(Tick(prev).value).value else prev
  }

  /** After `n` periods from `count` the value is `count - n`, saturated at 0. */
  lemma {:induction false} AfterIsSaturatedSubtraction(count: real, n: nat)
    ensures After(count, n) == Max(count - n as real, 0.0)
    decreases n
  {
    if n > 0 {
      AfterIsSaturatedSubtraction(count, n - 1);
    }
  }

  /** The value never increases from one period to the next, and once it is
      0 it stays 0. */
  lemma AfterNonIncreasing(count: real, n: nat)
    ensures After(count, n + 1) <= After(count, n)
    ensures After(count, n) == 0.0 ==> After(count, n + 1) == 0.0
  {
    AfterIsSaturatedSubtraction(count, n);
    AfterIsSaturatedSubtraction(count, n + 1);
  }

  /** With `count = 3` the value is 0 after three periods and stays 0. */
  lemma ThreeReachesZero(k: nat)
    ensures After(3.0, 3 + k) == 0.0
  {
    AfterIsSaturatedSubtraction(3.0, 3 + k);
  }

  /** The value the tick hands to React is negative exactly when `prev` lies
      strictly between 0 and 1: a fractional count such as 0.5 renders -0.5
      once before the effect normalises it to 0. */
  lemma TickRendersNegativeOnlyBelowOne(prev: real)
    ensures Tick(prev).value < 0.0 <==> 0.0 < prev < 1.0
    ensures Tick(prev).value < 0.0 ==> Settle(Tick(prev).value) == Settled(0.0, false)
    ensures Tick(0.5).value == -0.5 && Settle(-0.5).value == 0.0
  {
  }
}

=== FILE: use_fetch.dfy ===
/** `useFetch`: a process-wide cache from URL to decoded response body, and
    a per-activation outcome record. One call of `fetchData` is an attempt:
    a cache hit publishes the cached body; a miss starts a request (loading)
    and later completes with a body or with a raised error. The network and
    the JSON decoding are an abstract `Response` given as input. */
module UseFetch {
  import opened Maps

  /** A decoded JSON value; numbers are reals. */
  datatype Json =
    | Null
    | Bool(b: bool)
    | Num(n: real)
    | Str(s: string)
    | Arr(items: seq<Json>)
    | Obj(fields: map<string, Json>)

  /** JavaScript truthiness of a decoded value: `null`, `false`, `0` and `""`
      are falsy; every array and object, even an empty one, is truthy. */
  predicate Truthy(j: Json)
  {
    match j
    case Null => false
    case Bool(b) => b
    case Num(n) => n != 0.0
    case Str(s) => s != ""
    case Arr(_) => true
    case Obj(_) => true
  }

  /** The module-level `cache`, keyed by URL. */
  type Cache = map<string, Json>

  /** The four state cells of one activation; `error` is `None` for `null`. */
  datatype Outcome<E> = Outcome(data: Json, isLoading: bool, error: Option<E>, isError: bool)

  /** What the awaited `fetch(url)` then `response.json()` produce: a body,
      or the value either of them raised. */
  datatype Response<E> = Body(body: Json) | Raised(raised: E)

  /** The first half of an attempt: served from the cache (already settled),
      or a request was issued and the outcome is loading. */
  datatype Begun<E> = Served(outcome: Outcome<E>) | Requested(outcome: Outcome<E>)

  /** The state after a whole attempt, and whether the network was used. */
  datatype Attempt<E> = Attempt(cache: Cache, outcome: Outcome<E>, requested: bool)

  /** The lookup `cache[url]` short-circuits only on a present, truthy entry. */
  predicate IsHit(cache: Cache, url: string)
  {
    url in cache && Truthy(cache[url])
  }

  /** How the cache may evolve: no key is removed, and an entry that would be
      served as a hit is never replaced. */
  ghost predicate Grows(c: Cache, c': Cache)
  {
    && KeysKept(c, c')
    && forall k :: k in c && Truthy(c[k]) ==> k in c' && c'[k] == c[k]
  }

  /** The outcome when an activation starts. */
  function InitialOutcome<E>(): (o: Outcome<E>)
    ensures o.data == Arr([])
    ensures !o.isLoading && o.error == None && !o.isError
  {
    Outcome(Arr([]), false, None, false)
  }

  /** The synchronous part of `fetchData`: on a hit publish the cached body
      and clear loading (the `finally`); on a miss set loading. */
  function Begin<E>(cache: Cache, o: Outcome<E>, url: string): (r: Begun<E>)
    ensures r.Served? <==> IsHit(cache, url)
    ensures r.Served? ==> r.outcome == o.(data := cache[url], isLoading := false)
    ensures r.Requested? ==> r.outcome == o.(isLoading := true)
  {
    if url in cache && Truthy(cache[url]) then
      Served(o.(data := cache[url], isLoading := false))
    else
      Requested(o.(isLoading := true))
  }

  /** The part of `fetchData` after the awaits: a body is published and
      cached under `url`; a raised value is published and flags the error;
      loading is cleared either way. */
  function Complete<E>(cache: Cache, o: Outcome<E>, url: string, resp: Response<E>): (r: (Cache, Outcome<E>))
    ensures !r.1.isLoading
    ensures resp.Body? ==> WrittenAt(cache, r.0, url, resp.body) && r.1.data == resp.body
    ensures resp.Body? ==> r.1.error == o.error && r.1.isError == o.isError
    ensures resp.Raised? ==> r.0 == cache && r.1 == o.(error := Some(resp.raised), isError := true, isLoading := false)
  {
    match resp
    case Body(b) => (cache[url := b], o.(data := b, isLoading := false))
    case Raised(e) => (cache, o.(error := Some(e), isError := true, isLoading := false))
  }

  /** One whole attempt of `fetchData` for `url`; `resp` is what the network
      would answer and is used only on a miss. */
  function Fetch<E>(cache: Cache, o: Outcome<E>, url: string, resp: Response<E>): (r: Attempt<E>)
    ensures r.requested <==> !IsHit(cache, url)
    ensures !r.outcome.isLoading
    ensures Grows(cache, r.cache)
    ensures o.isError ==> r.outcome.isError
    ensures !r.requested ==> r.cache == cache && r.outcome.data == cache[url]
    ensures !r.requested ==> r.outcome.error == o.error && r.outcome.isError == o.isError
    ensures r.requested && resp.Body? ==>
      WrittenAt(cache, r.cache, url, resp.body) && r.outcome.data == resp.body
      && r.outcome.error == o.error && r.outcome.isError == o.isError
    ensures r.requested && resp.Raised? ==>
      r.cache == cache && r.outcome.data == o.data
      && r.outcome.error == Some(resp.raised) && r.outcome.isError
  {
    match Begin(cache, o, url)
    case Served(o') => Attempt(cache, o', false)
    case Requested(o') =>
      var (c', o'') := Complete(cache, o', url, resp);
      Attempt(c', o'', true)
  }

  /** `Grows` composes, so it holds across any number of attempts. */
  lemma GrowsTransitive(c1: Cache, c2: Cache, c3: Cache)
    requires Grows(c1, c2) && Grows(c2, c3)
    ensures Grows(c1, c3)
  {
  }

  /** Two activations for the same URL: once the first has cached a truthy
      body, the second is served that body without a request and never
      shows loading. */
  lemma SecondActivationHits<E>(cache: Cache, o: Outcome<E>, url: string, body: Json, resp: Response<E>)
    requires !IsHit(cache, url) && Truthy(body)
    ensures var first := Fetch(cache, o, url, Body(body));
      && first.requested
      && Begin(first.cache, InitialOutcome<E>(), url) == Served(InitialOutcome<E>().(data := body))
      && Fetch(first.cache, InitialOutcome<E>(), url, resp)
         == Attempt(first.cache, Outcome(body, false, None, false), false)
  {
  }

  /** A falsy body (`null`, `0`, `false`, `""`) is cached but never served:
      the next attempt for the URL goes to the network again. */
  lemma FalsyBodyIsRefetched<E>(cache: Cache, o: Outcome<E>, url: string, body: Json, resp: Response<E>)
    requires !IsHit(cache, url) && !Truthy(body)
    ensures var first := Fetch(cache, o, url, Body(body));
      && first.requested
      && url in first.cache
      && Fetch(first.cache, first.outcome, url, resp).requested
  {
  }

  /** A failure followed by a success (for this or another URL) leaves the
      error and its flag in place: no path resets them. */
  lemma ErrorSurvivesSuccess<E>(cache: Cache, o: Outcome<E>, bad: string, e: E, good: string, body: Json)
    requires !IsHit(cache, bad)
    ensures var failed := Fetch(cache, o, bad, Raised(e));
      var later := Fetch(failed.cache, failed.outcome, good, Body(body));
      && later.outcome.isError
      && later.outcome.error == Some(e)
  {
  }

  /** The cache and the outcome between attempts. */
  datatype Snapshot<E> = Snapshot(cache: Cache, outcome: Outcome<E>)

  /** A run of attempts within one activation, as the URL changes. */
  function Run<E>(cache: Cache, o: Outcome<E>, attempts: seq<(string, Response<E>)>): Snapshot<E>
    decreases |attempts|
  {
    if |attempts| == 0 then Snapshot(cache, o)
    else
      var a := Fetch(cache, o, attempts[0].0, attempts[0].1);
      Run(a.cache, a.outcome, attempts[1..])
  }

  /** Over any run: the cache only grows and keeps its hits, the error flag
      never goes back to false, and nothing is loading once an attempt has
      completed. */
  lemma {:induction false} RunInvariants<E>(cache: Cache, o: Outcome<E>, attempts: seq<(string, Response<E>)>)
    ensures Grows(cache, Run(cache, o, attempts).cache)
    ensures o.isError ==> Run(cache, o, attempts).outcome.isError
    ensures |attempts| > 0 ==> !Run(cache, o, attempts).outcome.isLoading
    ensures !o.isLoading ==> !Run(cache, o, attempts).outcome.isLoading
    decreases |attempts|
  {
    if |attempts| > 0 {
      var a := Fetch(cache, o, attempts[0].0, attempts[0].1);
      RunInvariants(a.cache, a.outcome, attempts[1..]);
      GrowsTransitive(cache, a.cache, Run(a.cache, a.outcome, attempts[1..]).cache);
    }
  }
}

=== FILE: use_form.dfy ===
/** `useForm`: a field map and an error map, changed by input-change events
    and by submits that run a caller-supplied validator. Each React state
    update `set(prev => f(prev))` is the pure transition `f`. */
module UseForm {
  import opened Maps

  /** What an input stores: the text of `value`, or `checked` for a checkbox. */
  datatype FieldValue = Text(text: string) | Flag(checked: bool)

  type Fields = map<string, FieldValue>

  /** Field name to message; the validator's result and the hook's `errors`. */
  type Errors = map<string, string>

  /** The parts of the change event's target that the handler reads. */
  datatype ChangeEvent = ChangeEvent(name: string, inputType: string, value: string, checked: bool)

  datatype FormState = FormState(inputs: Fields, errors: Errors)

  /** The outcome of a submit: the new state, and the argument the submit
      callback was invoked with, if it was invoked. */
  datatype Submission = Submission(state: FormState, submitted: Option<Fields>)

  /** The invariant every reachable state keeps with respect to `base`, the
      map the fields were last set from (the mount value, or the reset target
      of the last successful submit): none of its fields is dropped from
      `inputs`, because changes only add or overwrite. */
  ghost predicate Inv(base: Fields, s: FormState)
  {
    base.Keys <= s.inputs.Keys
  }

  /** The value a change event stores under its `name`. */
  function StoredValue(e: ChangeEvent): FieldValue
  {
    if e.inputType == "checkbox" then Flag(e.checked) else Text(e.value)
  }

  /** The state on first render. */
  function Init(initial: Fields): (s: FormState)
    ensures s.inputs == initial
    ensures s.errors == map[]
    ensures Inv(initial, s)
  {
    FormState(initial, map[])
  }

  /** `onChangeHandler`: writes one field and clears its error when the
      typed value is non-empty. */
  function OnChange(s: FormState, e: ChangeEvent): (r: FormState)
    ensures e.inputType == "checkbox" ==> WrittenAt(s.inputs, r.inputs, e.name, Flag(e.checked))
    ensures e.inputType != "checkbox" ==> WrittenAt(s.inputs, r.inputs, e.name, Text(e.value))
    ensures e.value != "" ==> WrittenAt(s.errors, r.errors, e.name, "")
    ensures e.value == "" ==> r.errors == s.errors
  {
    var inputs := s.inputs[e.name := StoredValue(e)];
    var errors := if e.value != "" then s.errors[e.name := ""] else s.errors;
    FormState(inputs, errors)
  }

  /** `onSubmitHandler`: a validator result with any entry blocks the submit
      and becomes the error map; an empty one fires the callback with the
      current fields and resets them to the initial values. */
  function OnSubmit(initial: Fields, s: FormState, validate: Fields -> Errors): (r: Submission)
    ensures |validate(s.inputs)| > 0 ==>
      r.state == FormState(s.inputs, validate(s.inputs)) && r.submitted == None
    ensures |validate(s.inputs)| == 0 ==>
      r.state == FormState(initial, s.errors) && r.submitted == Some(s.inputs)
    ensures r.submitted.Some? <==> validate(s.inputs) == map[]
  {
    var found := validate(s.inputs);
    // `Object.values(found).length` counts the entries of `found`.
    if |found| > 0 then
      Submission(FormState(s.inputs, found), None)
    else
      Submission(FormState(initial, s.errors), Some(s.inputs))
  }

  /** A change keeps the invariant. */
  lemma OnChangeKeepsInv(initial: Fields, s: FormState, e: ChangeEvent)
    requires Inv(initial, s)
    ensures Inv(initial, OnChange(s, e))
  {
  }

  /** A submit keeps the invariant, whichever branch it takes. */
  lemma OnSubmitKeepsInv(initial: Fields, s: FormState, validate: Fields -> Errors)
    requires Inv(initial, s)
    ensures Inv(initial, OnSubmit(initial, s, validate).state)
  {
  }

  /** Repeating the same change event changes nothing more. */
  lemma OnChangeIdempotent(s: FormState, e: ChangeEvent)
    ensures OnChange(OnChange(s, e), e) == OnChange(s, e)
  {
  }

  /** Changes to two different fields commute. */
  lemma OnChangeCommutes(s: FormState, e1: ChangeEvent, e2: ChangeEvent)
    requires e1.name != e2.name
    ensures OnChange(OnChange(s, e1), e2) == OnChange(OnChange(s, e2), e1)
  {
  }

  /** The validator's entries block a submit even when every message is
      empty: the handler counts entries, not messages. */
  lemma BlankMessagesStillBlock(initial: Fields, s: FormState, validate: Fields -> Errors, name: string)
    requires validate(s.inputs) == map[name := ""]
    ensures OnSubmit(initial, s, validate).submitted == None
    ensures OnSubmit(initial, s, validate).state.errors[name] == ""
  {
    assert name in validate(s.inputs);
  }

  /** A user action on the form, or a re-render that passes a new
      `initialInputValue` argument. */
  datatype Action =
    | Changed(event: ChangeEvent)
    | Submitted(validate: Fields -> Errors)
    | Rerendered(arg: Fields)

  /** A mounted form: the hook's current `initialInputValue` argument (the
      target of the next reset), the map the fields were last set from (the
      mount value or the argument of the last successful submit), the state,
      and the callback arguments in order. */
  datatype Session = Session(arg: Fields, base: Fields, state: FormState, calls: seq<Fields>)

  /** Mounting: `useState` keeps the first render's argument. */
  function Mount(initial: Fields): (s: Session)
    ensures s.state == Init(initial) && s.arg == initial && s.base == initial && s.calls == []
  {
    Session(initial, initial, Init(initial), [])
  }

  /** One action. A submit resets to the argument of the render whose
      handler runs, which need not be the mount value. */
  function Step(s: Session, a: Action): Session
  {
    match a
    case Changed(e) => s.(state := OnChange(s.state, e))
    case Submitted(v) =>
      var sub := OnSubmit(s.arg, s.state, v);
      if sub.submitted.Some? then
        Session(s.arg, s.arg, sub.state, s.calls + [sub.submitted.value])
      else
        s.(state := sub.state)
    case Rerendered(arg) => s.(arg := arg)
  }

  function Run(s: Session, actions: seq<Action>): Session
    decreases |actions|
  {
    if |actions| == 0 then s else Run(Step(s, actions[0]), actions[1..])
  }

  /** The number of `Submitted` actions in `actions`. */
  function Submits(actions: seq<Action>): nat
  {
    if |actions| == 0 then 0
    else (if actions[0].Submitted? then 1 else 0) + Submits(actions[1..])
  }

  /** No action in `actions` changes the hook's argument. */
  predicate SameArgument(actions: seq<Action>)
  {
    forall i :: 0 <= i < |actions| ==> !actions[i].Rerendered?
  }

  /** Over any run, no field of the map the form was last set from is lost,
      earlier callback arguments are kept, and the callback fires at most
      once per submit. While the argument never changes, that map stays the
      mount value. */
  lemma {:induction false} RunKeepsInv(s: Session, actions: seq<Action>)
    requires Inv(s.base, s.state)
    ensures Inv(Run(s, actions).base, Run(s, actions).state)
    ensures s.calls <= Run(s, actions).calls
    ensures |Run(s, actions).calls| <= |s.calls| + Submits(actions)
    ensures SameArgument(actions) && s.arg == s.base ==>
      Run(s, actions).arg == s.arg && Run(s, actions).base == s.base
    decreases |actions|
  {
    if |actions| > 0 {
      var next := Step(s, actions[0]);
      if actions[0].Changed? {
        OnChangeKeepsInv(s.base, s.state, actions[0].event);
      }
      assert Inv(next.base, next.state);
      if SameArgument(actions) {
        assert SameArgument(actions[1..]) by {
          forall i | 0 <= i < |actions[1..]|
            ensures !actions[1..][i].Rerendered?
          {
            assert actions[1..][i] == actions[i + 1];
          }
        }
      }
      RunKeepsInv(next, actions[1..]);
    }
  }

  /** The reset target is the current argument, not the mount value: mount
      with field `x`, re-render with `{}`, submit successfully, and `x` is
      gone. */
  lemma ArgumentChangeCanDropField()
    ensures var s := Run(Mount(map["x" := Text("")]),
                         [Rerendered(map[]), Submitted((f: Fields) => map[])]);
      && s.state.inputs == map[]
      && "x" !in s.state.inputs
      && s.calls == [map["x" := Text("")]]
  {
  }
}

=== FILE: use_local_storage.dfy ===
/** `useLocalStorage`: a state value mirrored into a string store under a
    key. The first value is read once from the store, falling back to the
    initial value; after every change of the value or the key the effect
    writes the serialised value back under the current key. `JSON.parse` and
    `JSON.stringify` are the caller-supplied `Codec`, with parse able to fail. */
module UseLocalStorage {
  import opened Maps

  /** The contents of `localStorage`. */
  type Items = map<string, string>

  /** The store as seen by the initial read: its items, and whether
      `getItem` throws (storage disabled or blocked). */
  datatype Storage = Storage(items: Items, readThrows: bool)

  /** The JSON codec: `parse` returns `None` where `JSON.parse` throws. */
  datatype Codec<!T> = Codec(parse: string -> Option<T>, serialize: T -> string)

  /** A mounted hook: its current key, its saved value, and the store. */
  datatype Mirror<T> = Mirror(key: string, saved: T, items: Items)

  /** The store holds the serialised saved value under the current key. */
  ghost predicate Mirrored<T>(m: Mirror<T>, codec: Codec<T>)
  {
    m.key in m.items && m.items[m.key] == codec.serialize(m.saved)
  }

  /** The lazy initial read: the parsed stored string when `getItem`
      succeeds, returns a non-empty string, and that string parses;
      `initialValue` in every other case, and nothing escapes. */
  function ReadInitial<T>(st: Storage, key: string, initialValue: T, codec: Codec<T>): (r: T)
    ensures st.readThrows ==> r == initialValue
    ensures key !in st.items ==> r == initialValue
    ensures key in st.items && st.items[key] == "" ==> r == initialValue
    ensures key in st.items && codec.parse(st.items[key]).None? ==> r == initialValue
    ensures !st.readThrows && key in st.items && st.items[key] != "" && codec.parse(st.items[key]).Some? ==>
      r == codec.parse(st.items[key]).value
  {
    if st.readThrows || key !in st.items then initialValue
    else
      var stored := st.items[key];
      if stored == "" then initialValue
      else
        match codec.parse(stored)
        case Some(v) => v
        case None => initialValue
  }

  /** The effect: `setItem(key, JSON.stringify(saved))`. */
  function WriteBack<T>(items: Items, key: string, saved: T, codec: Codec<T>): (r: Items)
    ensures WrittenAt(items, r, key, codec.serialize(saved))
  {
    items[key := codec.serialize(saved)]
  }

  /** Mounting: the initial read, then the effect's first write-back. */
  function Mount<T>(st: Storage, key: string, initialValue: T, codec: Codec<T>): (m: Mirror<T>)
    ensures m.key == key && m.saved == ReadInitial(st, key, initialValue, codec)
    ensures Mirrored(m, codec)
    ensures AgreeExcept(st.items, m.items, key)
  {
    var saved := ReadInitial(st, key, initialValue, codec);
    Mirror(key, saved, WriteBack(st.items, key, saved, codec))
  }

  /** `setSavedValue(v)` followed by the effect it triggers. */
  function SetValue<T>(m: Mirror<T>, v: T, codec: Codec<T>): (r: Mirror<T>)
    ensures r.key == m.key && r.saved == v
    ensures WrittenAt(m.items, r.items, m.key, codec.serialize(v))
  {
    Mirror(m.key, v, WriteBack(m.items, m.key, v, codec))
  }

  /** A re-render with a new `key`: the value is not re-read (the lazy
      initialiser runs only on mount); the effect writes the current value
      under the new key and the old key keeps what it held. */
  function SetKey<T>(m: Mirror<T>, key: string, codec: Codec<T>): (r: Mirror<T>)
    ensures r.key == key && r.saved == m.saved
    ensures WrittenAt(m.items, r.items, key, codec.serialize(m.saved))
  {
    Mirror(key, m.saved, WriteBack(m.items, key, m.saved, codec))
  }

  /** Both updates re-establish the mirror, whatever the state before. */
  lemma UpdatesMirror<T>(m: Mirror<T>, v: T, key: string, codec: Codec<T>)
    ensures Mirrored(SetValue(m, v, codec), codec)
    ensures Mirrored(SetKey(m, key, codec), codec)
  {
  }

  /** When parse inverts serialise on the saved value (and the serialised
      text is not empty, as `JSON.stringify` output never is), a fresh mount
      on the mirrored store reads back exactly the saved value, whatever its
      own initial value. */
  lemma RemountReadsBack<T>(m: Mirror<T>, codec: Codec<T>, otherInitial: T)
    requires Mirrored(m, codec)
    requires codec.serialize(m.saved) != ""
    requires codec.parse(codec.serialize(m.saved)) == Some(m.saved)
    ensures ReadInitial(Storage(m.items, false), m.key, otherInitial, codec) == m.saved
    ensures Mount(Storage(m.items, false), m.key, otherInitial, codec) == m
  {
    assert m.items[m.key := codec.serialize(m.saved)] == m.items;
  }

  /** Stored data that does not parse falls back to the initial value. */
  lemma InvalidDataFallsBack<T>(items: Items, key: string, initialValue: T, codec: Codec<T>)
    requires key in items && codec.parse(items[key]).None?
    ensures Mount(Storage(items, false), key, initialValue, codec).saved == initialValue
    ensures Mount(Storage(items, false), key, initialValue, codec).items[key] == codec.serialize(initialValue)
  {
  }

  /** A change made by the component. */
  datatype Action<T> = NewValue(value: T) | NewKey(key: string)

  function Step<T>(m: Mirror<T>, a: Action<T>, codec: Codec<T>): Mirror<T>
  {
    match a
    case NewValue(v) => SetValue(m, v, codec)
    case NewKey(k) => SetKey(m, k, codec)
  }

  function Run<T>(m: Mirror<T>, actions: seq<Action<T>>, codec: Codec<T>): Mirror<T>
    decreases |actions|
  {
    if |actions| == 0 then m else Run(Step(m, actions[0], codec), actions[1..], codec)
  }

  /** The keys a run writes to: the current key and every key it switches to. */
  function Touched<T>(key: string, actions: seq<Action<T>>): set<string>
    decreases |actions|
  {
    if |actions| == 0 then {key}
    else
      var next := if actions[0].NewKey? then actions[0].key else key;
      {key} + Touched(next, actions[1..])
  }

  /** Over any run after mounting the store stays mirrored, and every key the
      run never used holds what it held before. */
  lemma {:induction false} RunKeepsMirror<T>(m: Mirror<T>, actions: seq<Action<T>>, codec: Codec<T>)
    requires Mirrored(m, codec)
    ensures Mirrored(Run(m, actions, codec), codec)
    ensures forall k :: k in m.items && k !in Touched(m.key, actions) ==>
      k in Run(m, actions, codec).items && Run(m, actions, codec).items[k] == m.items[k]
    decreases |actions|
  {
    if |actions| > 0 {
      var next := Step(m, actions[0], codec);
      UpdatesMirror(m, if actions[0].NewValue? then actions[0].value else m.saved,
                    if actions[0].NewKey? then actions[0].key else m.key, codec);
      RunKeepsMirror(next, actions[1..], codec);
    }
  }
}

=== FILE: use_toggle.dfy ===
/** `useToggle`: a boolean flipped by `onToggle`. */
module UseToggle {

  /** The hook's default `initialValue`. */
  const DefaultInitial: bool := false

  /** The state's first value. */
  function Init(initialValue: bool := DefaultInitial): bool
  {
    initialValue
  }

  /** `onToggle`'s updater. */
  function Toggle(prev: bool): (r: bool)
    ensures r != prev
  {
    !prev
  }

  /** The value after `n` calls of `onToggle`. */
  function Toggled(b: bool, n: nat): bool
    decreases n
  {
    if n == 0 then b else Toggle(Toggled(b, n - 1))
  }

  /** The first value is `initialValue`; without an argument the toggle starts off. */
  lemma DefaultIsOff()
    ensures !Init()
    ensures forall b :: Init(b) == b
    ensures Toggled(Init(), 1) && !Toggled(Init(), 2)
  {
  }

  /** Toggling twice gives back the original value. */
  lemma ToggleTwice(b: bool)
    ensures Toggle(Toggle(b)) == b
  {
  }

  /** After `n` toggles the value is the initial one exactly when `n` is even. */
  lemma {:induction false} ToggledParity(b: bool, n: nat)
    ensures Toggled(b, n) == (b != (n % 2 == 1))
    decreases n
  {
    if n > 0 {
      ToggledParity(b, n - 1);
    }
  }
}
